=== FILE: README.md ===
# Function registry, lifecycle and router decisions of Open WebUI, in Dafny

This project models the core of Open WebUI's web-UI routers as a functional
state machine. Every handler is a pure function. It takes the state and the
request and returns a `Reply(state, result)`: the state it leaves behind and
its response or error kind. The two travel together because several handlers
change state even when they fail.

- `Functions` (`functions.dfy`) is the function plugin runtime. It has a persisted store
  `id -> FunctionRecord` (content, type, manifest, `is_active`, `is_global`,
  valves), per-user valves keyed by `(function id, user id)`, and the
  in-memory registry `id -> Handle` of loaded modules. It covers create,
  update, both toggles, delete, lazy loading on a registry miss, the valve
  schema lookups, and the admin and user valve updates. The import rewriter,
  the module loader and the `Valves`/`UserValves` constructors are oracles in
  `Env`. A module's `Valves`/`UserValves` classes are optional schemas on its `Handle`.
- `Lifecycle` (`lifecycle.dfy`) holds properties that span several requests:
  - stored ids stay well formed;
  - the registry stays coherent with the store, except on the two paths where
    the registry is written and the store write then fails;
  - toggling twice is the identity;
  - a successful update is served at once;
  - the lazy load caches its module.
- `Users` (`users.dfy`): role changes, info merge, `shared-` id resolution, admin edits, self-delete ban, default permissions.
- `Models` and `Prompts`: owner/admin/access decisions and duplicate-key checks over keyed stores.
- `Evaluations`: partial config update and feedback scoping.
- `Text`: ASCII `isidentifier`, `lower`, `startswith` and `replace(p, "")`. `Access`: the shared owner/admin/access predicates. `Common`: shared types.

`has_access`, `has_permission`, the store's answers to inserts and deletes
(`insertOk`, `deleteOk`) and the id a new feedback receives are parameters.
The feedback delete is the exception: its answer is derived from the store
(see `Evaluations.DeleteFeedback` under "Left out").

The router code behaves as follows:
- Function ids only need `str.isidentifier()` and are then lower-cased. Upper-case letters are accepted, and an id such as `1f` that fits `[a-z0-9_]+` is rejected. In the model's ASCII reading of these two calls, `Text.LowerIdentifier` proves that an accepted id lower-cases to the `[a-z0-9_]+` shape. Python itself accepts non-ASCII letters: `Café` is stored as `café`, which is not of that shape.
- Create and update are not all-or-nothing. The registry is written before the store, so a failed insert leaves a registry entry behind. So does an update of an id that is not stored, because update does not check that the function exists.
- A valve update does not merge with the stored valves. The form, with `None` fields dropped, is validated into a fresh configuration object, which replaces the stored valves. Absent fields therefore take the class defaults, not their previous values.
- A failed lazy load in the valve handlers is not caught. It is reported as `LoadFailed` and changes nothing.

## Model

| member | source | states |
|---|---|---|
| Functions.CreateFunction | backend/open_webui/apps/webui/routers/functions.py:77-120 | a non-identifier id fails with nothing changed; a lower-cased id already stored is ID_TAKEN with nothing changed; for a free identifier a failed load is LOAD_FAILED with nothing changed, and a failed insert is an error whose only change is the loaded module registered under the lower-cased id; success exactly when the id is a free identifier, the load succeeds and the insert succeeds, and then the record sits under the lower-cased id with the loader's type, the frontmatter as manifest and the rewritten content, and the registry holds the loaded handle; the store changes only on success |
| Functions.UpdateFunction | backend/open_webui/apps/webui/routers/functions.py:246-273 | a failed load changes nothing; a successful load replaces the registry entry even when the id is not stored; success exactly when the id is stored and the load succeeds; the store's ids never change; the updated record keeps id, owner, flags and valves and takes the form's name and description, the rewritten content, the loaded type and the frontmatter; other records are untouched |
| Functions.ToggleActive | backend/open_webui/apps/webui/routers/functions.py:168-185 | a missing id is NOT_FOUND with nothing changed; otherwise the record differs from before only in `is_active`, which is flipped, and only that record changes |
| Functions.ToggleGlobal | backend/open_webui/apps/webui/routers/functions.py:205-222 | a missing id is NOT_FOUND with nothing changed; otherwise only `is_global` of that record is flipped |
| Functions.DeleteFunction | backend/open_webui/apps/webui/routers/functions.py:296-303 | answers what the store's delete reports; on success the id leaves both store and registry; on failure nothing changes, the registry included |
| Functions.EnsureLoaded | backend/open_webui/apps/webui/routers/functions.py:400-406 | a cached module is returned with nothing changed; on a miss the module loaded from the stored content is returned and cached; a failed load changes nothing |
| Functions.ValvesSpec | backend/open_webui/apps/webui/routers/functions.py:360-376 | a missing function is NOT_FOUND; otherwise the module is loaded lazily and the answer is the schema of its configuration class for the tier, or `None` when it declares none; store and user valves never change |
| Functions.DropNulls | backend/open_webui/apps/webui/routers/functions.py:412 | keeps exactly the form's keys whose value is not `None`, each with its value |
| Functions.UpdateValves | backend/open_webui/apps/webui/routers/functions.py:400-432 | a missing function is NOT_FOUND; otherwise the registry is left as the lazy load leaves it, error paths included; a failed load is LOAD_FAILED, a module without the tier's class NOT_FOUND, a form the validator refuses VALIDATION_FAILED, and a form it accepts (with `None` fields dropped) succeeds with the validator's output as both the answer and the tier's stored valves; any error leaves store and user valves as they were; only the valves field of this function can change, and an admin update leaves every other record and all user valves unchanged; a user update can add no user-valve key but `(function id, that user)` |
| Text.IsIdentifier | backend/open_webui/apps/webui/routers/functions.py:77 | an identifier is exactly a non-empty string of letters, digits and underscores that does not start with a digit (ASCII only) |
| Text.Lower | backend/open_webui/apps/webui/routers/functions.py:83 | the result has the input's length and each character is the input's character lower-cased |
| Text.RemoveAll | backend/open_webui/apps/webui/routers/users.py:342 | removing every occurrence never lengthens the string; the scan itself is pinned down by `Text.RemoveAllAbsent` and `Text.RemoveAllFirst` |
| Text.RemoveAllFirst | backend/open_webui/apps/webui/routers/users.py:342 | the text before the leftmost occurrence is kept, that occurrence is dropped, and the removal continues on the rest; with `Text.RemoveAllAbsent` this fixes the result on every string |
| Lifecycle.UserValvesKeyedByUser | backend/open_webui/apps/webui/routers/functions.py:519-548 | a successful user-valve update is stored under `(function id, user id)`, adds no other key, and leaves the function store and every other user's valves unchanged |
| Lifecycle.RejectedValvesKeepStored | backend/open_webui/apps/webui/routers/functions.py:411-421 | after a validation failure the stored valves of every tier are what they were |
| Lifecycle.ApplyKeepsIdsWellFormed | backend/open_webui/apps/webui/routers/functions.py:77-98 | every request keeps each record stored under its own id, an identifier of the form `[a-z0-9_]+` |
| Lifecycle.RunKeepsIdsWellFormed | backend/open_webui/apps/webui/routers/functions.py:77-98 | any sequence of requests keeps stored ids well formed |
| Lifecycle.ApplyKeepsCoherent | backend/open_webui/apps/webui/routers/functions.py:246-259 | outside a failed insert and an update of an unstored id, every request keeps each registry entry equal to the module its stored content loads to |
| Lifecycle.RunKeepsCoherent | backend/open_webui/apps/webui/routers/functions.py:88-98 | any sequence of requests avoiding those two paths keeps the registry coherent with the store |
| Lifecycle.UpdateOfMissingIdLeavesRegistryEntry | backend/open_webui/apps/webui/routers/functions.py:253-267 | an update of an unstored id whose content loads fails, yet leaves a registry entry without a record, breaking coherence |
| Lifecycle.FailedInsertLeavesRegistryEntry | backend/open_webui/apps/webui/routers/functions.py:95-109 | a create whose insert fails leaves the loaded module registered without a record, breaking coherence |
| Lifecycle.CreateTwiceIsTaken | backend/open_webui/apps/webui/routers/functions.py:85-120 | after a successful create, a second create of an id with the same lower-case form is ID_TAKEN and changes nothing |
| Lifecycle.ToggleActiveTwice | backend/open_webui/apps/webui/routers/functions.py:168-175 | toggling `is_active` twice restores the state and answers with the original record |
| Lifecycle.ToggleGlobalTwice | backend/open_webui/apps/webui/routers/functions.py:205-212 | toggling `is_global` twice restores the state and answers with the original record |
| Lifecycle.UpdateServesNewModule | backend/open_webui/apps/webui/routers/functions.py:248-259 | right after a successful update the registry serves the module loaded from the new stored content |
| Lifecycle.DeleteThenNotFound | backend/open_webui/apps/webui/routers/functions.py:296-303 | after a successful delete the id is in neither map and toggle, schema lookup and valve update all report NOT_FOUND |
| Lifecycle.ValvesSpecCaches | backend/open_webui/apps/webui/routers/functions.py:360-366 | after a successful schema lookup the module is cached and a repeated lookup answers the same without changing state |
| Text.LowerIdentifier | backend/open_webui/apps/webui/routers/functions.py:77-83 | an identifier stays an identifier when lower-cased and takes the `[a-z0-9_]+` shape with a non-digit head |
| Text.DigitHeadIsNotIdentifier | backend/open_webui/apps/webui/routers/functions.py:77 | `1f` fits `[a-z0-9_]+` yet is refused as an id |
| Text.LowerIdempotent | backend/open_webui/apps/webui/routers/users.py:388-406 | lower-casing an already lower-cased string changes nothing, so the email an edit stores is already in the lower-case form the next edit compares against |
| Text.RemoveAllAbsent | backend/open_webui/apps/webui/routers/users.py:342 | removing a pattern that does not occur returns the string unchanged |
| Text.RemoveAllLeading | backend/open_webui/apps/webui/routers/users.py:341-342 | a leading occurrence is dropped and the scan continues after it |
| Users.SetDefaultPermissions | backend/open_webui/apps/webui/routers/users.py:160-161 | the submitted permissions replace the defaults and are returned; the rest of the config is unchanged |
| Users.UpdateRole | backend/open_webui/apps/webui/routers/users.py:181-187 | the first user is the stored user created earliest, asked of the store on each request; a target that is the session user or the first user is ACTION_PROHIBITED with nothing changed; with no user stored the lookup fails and so does the request; success exactly otherwise; an unknown target answers `None` with nothing changed; otherwise only the target's role changes |
| Users.RoleUpdateSparesSelfAndFirst | backend/open_webui/apps/webui/routers/users.py:181 | no role update changes the session user's or the first user's record |
| Users.FirstUserPassesOnDelete | backend/open_webui/apps/webui/routers/users.py:181 | once the first user is deleted, the earliest remaining user is the first user, and a role update of them is ACTION_PROHIBITED |
| Users.UpdateInfo | backend/open_webui/apps/webui/routers/users.py:290-307 | an unknown session user is USER_NOT_FOUND; otherwise the new info has the keys of the old info (`None` read as empty) and of the form, form values win, other keys keep their old values, and only that user's info changes |
| Users.UpdateInfoIdempotent | backend/open_webui/apps/webui/routers/users.py:292-297 | submitting the same info form twice equals submitting it once |
| Users.ResolveUserId | backend/open_webui/apps/webui/routers/users.py:341-350 | an id without the `shared-` prefix stands for itself; with it, every `shared-` is removed and the result is that chat's owner, or USER_NOT_FOUND when no such chat exists |
| Users.SharedLinkResolvesToOwner | backend/open_webui/apps/webui/routers/users.py:341-345 | `shared-` followed by a chat id free of `shared-` resolves to that chat's owner |
| Users.GetUserById | backend/open_webui/apps/webui/routers/users.py:341-360 | answers name and profile image of the resolved user, and USER_NOT_FOUND exactly when resolution or lookup fails |
| Users.UpdateUserById | backend/open_webui/apps/webui/routers/users.py:385-422 | unknown user is USER_NOT_FOUND; a changed lower-cased email held by a stored user is EMAIL_TAKEN; errors change nothing; success writes name, lower-cased email and profile image and nothing else |
| Users.UpdateUserKeepsEmailsUnique | backend/open_webui/apps/webui/routers/users.py:388-409 | if no two users share an email before an edit, none do after it, and the stored email is lower-case |
| Users.UpdateUserTwiceIsStable | backend/open_webui/apps/webui/routers/users.py:385-409 | repeating a successful edit with the same form is not EMAIL_TAKEN, answers the same user and leaves the directory unchanged |
| Users.DeleteUser | backend/open_webui/apps/webui/routers/users.py:442-456 | deleting oneself is ACTION_PROHIBITED with nothing changed, so the session user survives; otherwise the user is removed when the credential delete succeeds, else DELETE_USER_ERROR |
| Users.UpdatedUserIsServed | backend/open_webui/apps/webui/routers/users.py:353-356 | after a successful admin edit, the public view of that user (an id without the `shared-` prefix) shows the form's name and profile image |
| Users.DeletedUserIsNotFound | backend/open_webui/apps/webui/routers/users.py:353-360 | after a successful delete, looking up that id (without the `shared-` prefix) is USER_NOT_FOUND |
| Users.PermissionsAndArenaSettingsCommute | backend/open_webui/apps/webui/routers/users.py:160-161 | setting the default permissions leaves the arena settings, and it commutes with the evaluation config update, whose answers are unaffected |
| Models.ListModels | backend/open_webui/apps/webui/routers/models.py:38-41 | an admin gets every stored model; anyone else exactly the stored models they own or have access to |
| Models.CreateModel | backend/open_webui/apps/webui/routers/models.py:88-111 | a non-admin without the models workspace permission is UNAUTHORIZED; a stored id is MODEL_ID_TAKEN, and MODEL_ID_TAKEN means the id is stored; a failed insert is the default error; errors insert nothing; success stores under its id the model built from the form's id, body, access control and flag, owned by the caller |
| Models.GetModel | backend/open_webui/apps/webui/routers/models.py:135-147 | a missing id is NOT_FOUND; an existing model is returned exactly when the caller is admin, owner or has read access, and `None` otherwise |
| Models.ToggleModel | backend/open_webui/apps/webui/routers/models.py:170-195 | a missing id is NOT_FOUND; without admin, ownership or write access UNAUTHORIZED with nothing changed; otherwise only `is_active` of that model flips |
| Models.UpdateModel | backend/open_webui/apps/webui/routers/models.py:223-232 | a missing id is NOT_FOUND; otherwise the model takes the form's body, access control and `is_active` and keeps its id and owner |
| Models.UpdateModelIgnoresCaller | backend/open_webui/apps/webui/routers/models.py:223-232 | the update's effect is the same whoever asks: no ownership or access check |
| Models.DeleteModel | backend/open_webui/apps/webui/routers/models.py:255-269 | a missing id is NOT_FOUND; a caller neither owner nor admin is UNAUTHORIZED; the model is removed only when allowed and the store reports success |
| Models.DeleteSparesOthersModels | backend/open_webui/apps/webui/routers/models.py:262-266 | a delete never removes a model that the caller neither owns nor administers |
| Models.CreatedModelIsReadable | backend/open_webui/apps/webui/routers/models.py:88-147 | after a successful create, the creator fetching that id gets back the model just created |
| Models.ToggleModelTwice | backend/open_webui/apps/webui/routers/models.py:170-195 | a toggle that succeeded, repeated by the same caller, restores the store and answers with the original model |
| Models.ListedIffTogglable | backend/open_webui/apps/webui/routers/models.py:38-41 | a stored model is in a caller's listing exactly when that caller may toggle it |
| Models.UpdatedModelIsRead | backend/open_webui/apps/webui/routers/models.py:135-147 | after an update an admin reads back the updated model, which carries the form's body, access control and `is_active` |
| Prompts.ListPrompts | backend/open_webui/apps/webui/routers/prompts.py:32-56 | an admin gets every prompt; anyone else exactly the prompts they own or have the given access to (read for `/`, write for `/list`) |
| Prompts.CreatePrompt | backend/open_webui/apps/webui/routers/prompts.py:82-103 | a non-admin without the prompts workspace permission is UNAUTHORIZED; a stored command is COMMAND_TAKEN, and COMMAND_TAKEN means the command is stored; a failed insert is the default error; errors insert nothing; success stores the caller's prompt under its command |
| Prompts.GetPrompt | backend/open_webui/apps/webui/routers/prompts.py:126-139 | looks up `"/" + command`: missing is NOT_FOUND; the prompt is returned exactly when the caller is admin, owner or has read access, and `None` otherwise |
| Prompts.UpdatePrompt | backend/open_webui/apps/webui/routers/prompts.py:167-187 | looks up `"/" + command`: missing is NOT_FOUND; neither owner nor admin is ACCESS_PROHIBITED with nothing changed; success replaces title, content and access control and keeps command and owner |
| Prompts.DeletePrompt | backend/open_webui/apps/webui/routers/prompts.py:210-224 | looks up `"/" + command` with the same checks as update; the prompt is removed only when allowed and the store reports success |
| Prompts.WritesKeepKeyedByCommand | backend/open_webui/apps/webui/routers/prompts.py:94-103 | create, update and delete keep every prompt stored under its own command |
| Prompts.ListedIffReadable | backend/open_webui/apps/webui/routers/prompts.py:32-37 | a stored prompt is in the read listing exactly when fetching it by command returns it |
| Prompts.CreatedPromptIsFound | backend/open_webui/apps/webui/routers/prompts.py:126-134 | a prompt created with command `"/" + c` is what its creator gets back for `c` |
| Evaluations.UpdateConfig | backend/open_webui/apps/webui/routers/evaluations.py:76-84 | each arena setting is overwritten exactly when the form gives a value, otherwise kept; the permissions are untouched; the answer is the resulting settings |
| Evaluations.UpdateConfigIdempotent | backend/open_webui/apps/webui/routers/evaluations.py:76-84 | applying the same form twice equals applying it once |
| Evaluations.EmptyConfigFormKeepsConfig | backend/open_webui/apps/webui/routers/evaluations.py:77-80 | a form with no values leaves the config unchanged |
| Evaluations.CreateFeedback | backend/open_webui/apps/webui/routers/evaluations.py:199-206 | a failed insert is an error with nothing stored; success stores the caller's feedback under the new id |
| Evaluations.GetFeedback | backend/open_webui/apps/webui/routers/evaluations.py:221-228 | found exactly when the id is stored and owned by the caller, admins included; otherwise NOT_FOUND |
| Evaluations.UpdateFeedback | backend/open_webui/apps/webui/routers/evaluations.py:246-255 | scoped like the read: a miss is NOT_FOUND with nothing changed; success replaces the data and keeps id and owner |
| Evaluations.DeleteFeedback | backend/open_webui/apps/webui/routers/evaluations.py:270-280 | an admin deletes any stored id, anyone else only their own; a delete that removes nothing is NOT_FOUND with nothing changed |
| Evaluations.DeleteSparesOthersFeedback | backend/open_webui/apps/webui/routers/evaluations.py:272-273 | a non-admin's delete never removes feedback owned by someone else |
| Evaluations.CreatedFeedbackRoundTrip | backend/open_webui/apps/webui/routers/evaluations.py:183-280 | feedback just created under a fresh id is what its author reads back, and its author's delete restores the store as it was |
| Evaluations.UpdatedFeedbackIsRead | backend/open_webui/apps/webui/routers/evaluations.py:210-255 | after the owner's update the owner reads back the updated feedback carrying the form's data, while any other caller still gets NOT_FOUND |

## Left out

- Functions.CreateFunction: `isidentifier()` and `lower()` are modelled on ASCII only. Python also accepts Unicode letters and lower-cases them.
- Users.UpdateUserById: emails are lower-cased on ASCII only.
- Text.LowerIdentifier: proved for the ASCII reading of `isidentifier()` and `lower()`. Python accepts non-ASCII letters, so an accepted id such as `Café` becomes `café`, outside `[a-z0-9_]+`.
- Lifecycle.ApplyKeepsIdsWellFormed: the `[a-z0-9_]+` part of the invariant holds only because the model reads identifiers as ASCII. The real router can store ids with non-ASCII letters.
- Lifecycle.RunKeepsIdsWellFormed: the same ASCII restriction as `Lifecycle.ApplyKeepsIdsWellFormed`.
- Evaluations.DeleteFeedback: the feedback store's delete is not part of this model. Its answer is taken to be "a feedback in the caller's scope was stored and is now removed": any stored id for an admin, the caller's own otherwise.
- Module loading, import rewriting, frontmatter parsing and `Valves.schema()` are oracles, because their code is not part of this model. `backend/open_webui/apps/webui/utils.py` is not part of this model.
- Lifecycle.ApplyKeepsCoherent: coherence assumes the loader is deterministic. The model's loader is a function of id and content, and the real one executes code.
- Models.ListModels and Prompts.ListPrompts: the store-side filter of the per-user listings is not part of this model. It is taken to be "owned by the caller or `has_access` with the permission". For models that permission is the store's default, write.
- Functions.NewRecord: new functions start inactive, not global and with empty valves. These are the store's defaults, not router logic.
- Users.UpdateRole: `get_first_user` is not part of this model. It is taken to return a user with the earliest creation time. When several users share that time the store picks one; the model protects all of them.
- Models.UpdateModel, Prompts.UpdatePrompt and Evaluations.UpdateFeedback: the routers hand the whole form to store methods that are not part of this model. Those methods are taken to keep the record's id (command) and owner and to write the form's fields: body, access control and `is_active` for a model; title, content and access control for a prompt; the data for a feedback.
- Store writes to an existing record are taken to succeed. This leaves out the "Error updating function" branch of the toggles and the valve-write exceptions. It also leaves out the path where the prompt store's update returns nothing and the router answers ACCESS_PROHIBITED.
- The per-function cache directory, password hashing and the credential password and email updates, logging and printing are left out, as is creation/update timestamping.
- Plain reads and pass-throughs with no decision are left out:
  - function listing, export and `get_function_by_id`;
  - the stored valve reads;
  - user listing, groups, permission reads, and settings and info reads/writes;
  - base models and delete-all;
  - the evaluation config read and the feedback listings, exports and bulk deletes.
- `groups.py`, `configs.py` and `utils.py` are left out: they pass through to storage and config setters, or call foreign libraries and I/O.
- HTTP status codes are not modelled; only the error kind is kept.
- FastAPI dependency injection is not modelled. Each handler receives its caller, with the admin-only dependencies taken as already satisfied.
- Async handling and concurrency are not modelled; each request is one atomic step.
- `has_access` and `has_permission` are uninterpreted oracles.

=== FILE: access.dfy ===
/**
 * The authorisation vocabulary shared by the model and prompt routers.
 * `has_access` and `has_permission` are not part of this model: they are
 * passed in as oracles and only their verdicts are used.
 */
module Access {
  import opened Common

  datatype Perm = Read | Write

  /** A resource's access-control description, as stored (`None` when absent). */
  type AccessControl = Option<Dict>

  /** `has_access(user_id, permission, access_control)`. */
  type AccessOracle = (UserId, Perm, AccessControl) -> bool

  /** `has_permission(user_id, key, USER_PERMISSIONS)` for the current default permissions. */
  type PermissionOracle = (UserId, string) -> bool

  /** The caller is an admin or owns the resource. */
  predicate OwnerOrAdmin(c: Caller, owner: UserId) {
    IsAdmin(c) || owner == c.id
  }

  /** The check the routers apply before reading or toggling a shared resource. */
  predicate MayUse(c: Caller, owner: UserId, acl: AccessControl, perm: Perm, hasAccess: AccessOracle) {
    OwnerOrAdmin(c, owner) || hasAccess(c.id, perm, acl)
  }

  /** The check the routers apply before creating a workspace resource. */
  predicate MayCreate(c: Caller, key: string, hasPermission: PermissionOracle) {
    IsAdmin(c) || hasPermission(c.id, key)
  }
}

=== FILE: common.dfy ===
/**
 * Shared vocabulary of the web UI's routers: optional values, the error kinds
 * the routers raise, JSON-like payloads, callers and the application config.
 */
module Common {

  /** A value that may be missing (Python's `Optional`). */
  datatype Option<+T> = None | Some(value: T)

  /**
   * The errors the routers raise, one per message they use. `Failed` stands
   * for the generic default message, `LoadFailed` and `ValidationFailed` for
   * the default message raised around a module load or a valve validation.
   */
  datatype ErrorKind =
    | InvalidId
    | IdTaken
    | LoadFailed
    | ValidationFailed
    | Failed
    | NotFound
    | Unauthorized
    | AccessProhibited
    | ActionProhibited
    | UserNotFound
    | EmailTaken
    | ModelIdTaken
    | CommandTaken
    | DeleteUserError

  /** The outcome of a request: a response value or an error. */
  datatype Result<+T> = Ok(value: T) | Err(error: ErrorKind)

  /**
   * The state after a request together with its outcome. Several handlers
   * change state even when they end in an error, so the two travel together.
   */
  datatype Reply<+S, +T> = Reply(state: S, result: Result<T>)

  /** JSON-like values carried in forms, valves and info dictionaries. */
  datatype Json =
    | JNull
    | JBool(b: bool)
    | JNum(n: int)
    | JStr(s: string)
    | JList(items: seq<Json>)
    | JObject(fields: map<string, Json>)

  type Dict = map<string, Json>

  type UserId = string

  datatype Role = Admin | Member | Pending

  /** The authenticated user a request runs as. */
  datatype Caller = Caller(id: UserId, role: Role)

  predicate IsAdmin(c: Caller) {
    c.role == Admin
  }

  datatype WorkspacePermissions =
    WorkspacePermissions(models: bool, knowledge: bool, prompts: bool, tools: bool)

  datatype ChatPermissions =
    ChatPermissions(fileUpload: bool, delete: bool, edit: bool, temporary: bool)

  /** The default permissions granted to users. */
  datatype UserPermissions =
    UserPermissions(workspace: WorkspacePermissions, chat: ChatPermissions)

  /** The part of the application's runtime config the routers write. */
  datatype AppConfig = AppConfig(
    userPermissions: UserPermissions,
    enableArenaModels: bool,
    arenaModels: seq<Dict>
  )
}

=== FILE: evaluations.dfy ===
/**
 * The evaluation router: the arena configuration and the feedback store,
 * where every non-admin access is scoped to the caller's own feedback.
 */
module Evaluations {
  import opened Common

  /** The update form: a `None` field leaves the setting as it is. */
  datatype ConfigForm = ConfigForm(enableArenaModels: Option<bool>, arenaModels: Option<seq<Dict>>)

  /** The evaluation settings as the router reports them. */
  datatype EvaluationConfig = EvaluationConfig(enableArenaModels: bool, arenaModels: seq<Dict>)

  function Overwrite<T>(current: T, given: Option<T>): T {
    if given.Some? then given.value else current
  }

  /** `update_config`: each setting is overwritten only when the form gives a value. */
  function UpdateConfig(cfg: AppConfig, form: ConfigForm): (r: Reply<AppConfig, EvaluationConfig>)
    ensures form.enableArenaModels.None? ==> r.state.enableArenaModels == cfg.enableArenaModels
    ensures form.enableArenaModels.Some? ==> r.state.enableArenaModels == form.enableArenaModels.value
    ensures form.arenaModels.None? ==> r.state.arenaModels == cfg.arenaModels
    ensures form.arenaModels.Some? ==> r.state.arenaModels == form.arenaModels.value
    ensures r.state.userPermissions == cfg.userPermissions
    ensures r.result == Ok(EvaluationConfig(r.state.enableArenaModels, r.state.arenaModels))
  {
    var cfg' := cfg.(enableArenaModels := Overwrite(cfg.enableArenaModels, form.enableArenaModels),
                     arenaModels := Overwrite(cfg.arenaModels, form.arenaModels));
    Reply(cfg', Ok(EvaluationConfig(cfg'.enableArenaModels, cfg'.arenaModels)))
  }

  /** Applying the same form twice is applying it once. */
  lemma UpdateConfigIdempotent(cfg: AppConfig, form: ConfigForm)
    ensures var r1 := UpdateConfig(cfg, form);
            UpdateConfig(r1.state, form) == r1
  {
  }

  /** A form with no values changes nothing. */
  lemma EmptyConfigFormKeepsConfig(cfg: AppConfig)
    ensures UpdateConfig(cfg, ConfigForm(None, None)).state == cfg
  {
  }

  datatype Feedback = Feedback(id: string, ownerId: UserId, data: Dict)

  type FeedbackStore = map<string, Feedback>

  /**
   * `create_feedback`: the store gives the new feedback the id `freshId`;
   * `insertOk` is whether its insert returns the feedback (a clash with a
   * stored id fails as well).
   */
  function CreateFeedback(store: FeedbackStore, caller: Caller, freshId: string, form: Dict, insertOk: bool)
    : (r: Reply<FeedbackStore, Feedback>)
    ensures r.result.Ok? <==> insertOk && freshId !in store
    ensures r.result.Err? ==> r == Reply(store, Err(Failed))
    ensures r.result.Ok? ==>
              && r.result.value == Feedback(freshId, caller.id, form)
              && r.state == store[freshId := r.result.value]
  {
    if insertOk && freshId !in store then
      var f := Feedback(freshId, caller.id, form);
      Reply(store[freshId := f], Ok(f))
    else
      Reply(store, Err(Failed))
  }

  /** The caller owns the stored feedback `id`. */
  predicate OwnsFeedback(store: FeedbackStore, caller: Caller, id: string) {
    id in store && store[id].ownerId == caller.id
  }

  /** `get_feedback_by_id`: scoped to the caller's own feedback, admins included. */
  function GetFeedback(store: FeedbackStore, caller: Caller, id: string): (r: Result<Feedback>)
    ensures r.Ok? <==> OwnsFeedback(store, caller, id)
    ensures r.Ok? ==> r.value == store[id]
    ensures r.Err? ==> r.error == NotFound
  {
    if OwnsFeedback(store, caller, id) then Ok(store[id]) else Err(NotFound)
  }

  /** `update_feedback_by_id`: scoped like the read; the data is replaced, id and owner kept. */
  function UpdateFeedback(store: FeedbackStore, caller: Caller, id: string, form: Dict): (r: Reply<FeedbackStore, Feedback>)
    ensures r.result.Ok? <==> OwnsFeedback(store, caller, id)
    ensures r.result.Err? ==> r == Reply(store, Err(NotFound))
    ensures r.result.Ok? ==>
              && r.result.value == Feedback(store[id].id, caller.id, form)
              && r.state == store[id := r.result.value]
  {
    if OwnsFeedback(store, caller, id) then
      var f := store[id].(data := form);
      Reply(store[id := f], Ok(f))
    else
      Reply(store, Err(NotFound))
  }

  /**
   * `delete_feedback_by_id`: an admin deletes by id alone, anyone else only
   * their own feedback; a delete that removes nothing is NOT_FOUND.
   */
  function DeleteFeedback(store: FeedbackStore, caller: Caller, id: string): (r: Reply<FeedbackStore, bool>)
    ensures IsAdmin(caller) ==> (r.result.Ok? <==> id in store)
    ensures !IsAdmin(caller) ==> (r.result.Ok? <==> OwnsFeedback(store, caller, id))
    ensures r.result.Ok? ==> r.result.value && r.state == store - {id}
    ensures r.result.Err? ==> r == Reply(store, Err(NotFound))
  {
    var allowed := if IsAdmin(caller) then id in store else OwnsFeedback(store, caller, id);
    if allowed then Reply(store - {id}, Ok(true)) else Reply(store, Err(NotFound))
  }

  /** A non-admin's delete never removes feedback owned by someone else. */
  lemma DeleteSparesOthersFeedback(store: FeedbackStore, caller: Caller, id: string, k: string)
    requires !IsAdmin(caller)
    requires k in store && store[k].ownerId != caller.id
    ensures k in DeleteFeedback(store, caller, id).state
  {
  }

  /** Feedback just created is what its author reads back, and what they delete afterwards. */
  lemma CreatedFeedbackRoundTrip(store: FeedbackStore, caller: Caller, freshId: string, form: Dict)
    requires freshId !in store
    ensures var r := CreateFeedback(store, caller, freshId, form, true);
            && GetFeedback(r.state, caller, freshId) == Ok(r.result.value)
            && DeleteFeedback(r.state, caller, freshId) == Reply(store, Ok(true))
  {
    var r := CreateFeedback(store, caller, freshId, form, true);
    assert r.state - {freshId} == store;
  }

  /** An update by the owner is what the owner reads back; nobody else can read it. */
  lemma UpdatedFeedbackIsRead(store: FeedbackStore, caller: Caller, other: Caller, id: string, form: Dict)
    requires OwnsFeedback(store, caller, id)
    requires other.id != caller.id
    ensures var r := UpdateFeedback(store, caller, id, form);
            && GetFeedback(r.state, caller, id) == Ok(r.result.value)
            && r.result.value.data == form
            && GetFeedback(r.state, other, id) == Err(NotFound)
  {
  }
}

=== FILE: functions.dfy ===
/**
 * The function registry and lifecycle: a persisted store of function records
 * and per-user valves, and the process-wide registry of loaded modules.
 *
 * The import rewriter, the module loader and the valve validators are not
 * part of this model; they are the oracles of `Env`. Each handler returns the
 * state it leaves behind together with its response or error.
 */
module Functions {
  import opened Common
  import opened Text

  type FunctionId = string

  type Content = string

  datatype FunctionType = Filter | Action | Pipe

  datatype FunctionMeta = FunctionMeta(description: string, manifest: map<string, string>)

  /** The body of a create or update request. */
  datatype FunctionForm = FunctionForm(id: FunctionId, name: string, content: Content, meta: FunctionMeta)

  /** A persisted function. */
  datatype FunctionRecord = FunctionRecord(
    id: FunctionId,
    ownerId: UserId,
    name: string,
    content: Content,
    kind: FunctionType,
    meta: FunctionMeta,
    isActive: bool,
    isGlobal: bool,
    valves: Dict
  )

  /** The schema description a configuration class reports for the UI. */
  datatype Schema = Schema(description: Dict)

  /**
   * A loaded module, known only by its identity and by the configuration
   * classes it declares: `Valves` (admin tier) and `UserValves` (user tier).
   */
  datatype Handle = Handle(code: nat, valves: Option<Schema>, userValves: Option<Schema>)

  /** What the loader yields: the module, its type and its parsed frontmatter, or a failure. */
  datatype LoadOutcome =
    | Loaded(handle: Handle, kind: FunctionType, frontmatter: map<string, string>)
    | LoadError

  /**
   * The collaborators the handlers call but whose code is not modelled:
   * `replace_imports`, `load_function_module_by_id` and the construction of
   * a configuration class from a dictionary (`None` when it raises).
   */
  datatype Env = Env(
    rewrite: Content -> Content,
    load: (FunctionId, Content) -> LoadOutcome,
    validate: (Schema, Dict) -> Option<Dict>
  )

  /** The persisted store, the per-user valves keyed by (function, user), and the registry. */
  datatype Plugins = Plugins(
    store: map<FunctionId, FunctionRecord>,
    userValves: map<(FunctionId, UserId), Dict>,
    registry: map<FunctionId, Handle>
  )

  /** The two configuration tiers: the admin's `Valves` and a user's `UserValves`. */
  datatype Tier = AdminTier | UserTier(user: UserId)

  function SchemaOf(h: Handle, tier: Tier): Option<Schema> {
    match tier
    case AdminTier => h.valves
    case UserTier(_) => h.userValves
  }

  /** The valves stored for `id` in `tier`, if any. */
  function StoredValves(s: Plugins, id: FunctionId, tier: Tier): Option<Dict> {
    match tier
    case AdminTier => if id in s.store then Some(s.store[id].valves) else None
    case UserTier(u) => if (id, u) in s.userValves then Some(s.userValves[(id, u)]) else None
  }

  /** The record a successful create inserts (new functions start inactive and not global). */
  function NewRecord(id: FunctionId, owner: UserId, form: FunctionForm, content: Content,
                     kind: FunctionType, frontmatter: map<string, string>): FunctionRecord
  {
    FunctionRecord(id, owner, form.name, content, kind, form.meta.(manifest := frontmatter),
                   false, false, map[])
  }

  /** The record an update leaves: the form's fields and the loaded type, the id and the rest kept. */
  function UpdatedRecord(prev: FunctionRecord, form: FunctionForm, content: Content,
                         kind: FunctionType, frontmatter: map<string, string>): FunctionRecord
  {
    prev.(name := form.name, content := content, kind := kind,
         meta := form.meta.(manifest := frontmatter))
  }

  /**
   * `create_new_function`. The id must be an identifier and is lower-cased;
   * the module is loaded from the rewritten content and put in the registry
   * before the record is inserted, so a failed insert leaves it there.
   */
  function CreateFunction(env: Env, s: Plugins, owner: UserId, form: FunctionForm, insertOk: bool)
    : (r: Reply<Plugins, FunctionRecord>)
    ensures !IsIdentifier(form.id) ==> r == Reply(s, Err(InvalidId))
    ensures IsIdentifier(form.id) && Lower(form.id) in s.store ==> r == Reply(s, Err(IdTaken))
    ensures IsIdentifier(form.id) && Lower(form.id) !in s.store
              && env.load(Lower(form.id), env.rewrite(form.content)).LoadError? ==>
              r == Reply(s, Err(LoadFailed))
    ensures env.load(Lower(form.id), env.rewrite(form.content)).LoadError? ==> r.state == s && r.result.Err?
    ensures IsIdentifier(form.id) && Lower(form.id) !in s.store && !insertOk
              && env.load(Lower(form.id), env.rewrite(form.content)).Loaded? ==>
              var id := Lower(form.id);
              r == Reply(s.(registry := s.registry[id := env.load(id, env.rewrite(form.content)).handle]), Err(Failed))
    ensures r.state.userValves == s.userValves
    ensures r.state.store != s.store ==> r.result.Ok?
    ensures r.result.Ok? <==>
              IsIdentifier(form.id) && Lower(form.id) !in s.store && insertOk
              && env.load(Lower(form.id), env.rewrite(form.content)).Loaded?
    ensures r.result.Ok? ==>
              var id := Lower(form.id);
              var content := env.rewrite(form.content);
              var loaded := env.load(id, content);
              && r.result.value == NewRecord(id, owner, form, content, loaded.kind, loaded.frontmatter)
              && r.result.value.meta.manifest == loaded.frontmatter
              && r.state.store == s.store[id := r.result.value]
              && r.state.registry == s.registry[id := loaded.handle]
  {
    if !IsIdentifier(form.id) then
      Reply(s, Err(InvalidId))
    else
      var id := Lower(form.id);
      if id in s.store then
        Reply(s, Err(IdTaken))
      else
        var content := env.rewrite(form.content);
        match env.load(id, content)
        case LoadError => Reply(s, Err(LoadFailed))
        case Loaded(handle, kind, frontmatter) =>
          var registry := s.registry[id := handle];
          if !insertOk then
            Reply(s.(registry := registry), Err(Failed))
          else
            var rec := NewRecord(id, owner, form, content, kind, frontmatter);
            Reply(Plugins(s.store[id := rec], s.userValves, registry), Ok(rec))
  }

  /**
   * `update_function_by_id`. The content is rewritten and loaded and the
   * registry entry replaced before the store is touched; the store update
   * excludes the id and fails when no record has this id.
   */
  function UpdateFunction(env: Env, s: Plugins, id: FunctionId, form: FunctionForm)
    : (r: Reply<Plugins, FunctionRecord>)
    ensures env.load(id, env.rewrite(form.content)).LoadError? ==> r == Reply(s, Err(LoadFailed))
    ensures env.load(id, env.rewrite(form.content)).Loaded? ==>
              r.state.registry == s.registry[id := env.load(id, env.rewrite(form.content)).handle]
    ensures r.state.store.Keys == s.store.Keys
    ensures r.state.userValves == s.userValves
    ensures forall k :: k in s.store && k != id ==> r.state.store[k] == s.store[k]
    ensures r.result.Ok? <==> id in s.store && env.load(id, env.rewrite(form.content)).Loaded?
    ensures r.result.Ok? ==>
              var prev := s.store[id];
              var loaded := env.load(id, env.rewrite(form.content));
              && r.state.store[id] == r.result.value
              && r.result.value.id == prev.id
              && r.result.value.ownerId == prev.ownerId
              && r.result.value.isActive == prev.isActive
              && r.result.value.isGlobal == prev.isGlobal
              && r.result.value.valves == prev.valves
              && r.result.value.name == form.name
              && r.result.value.content == env.rewrite(form.content)
              && r.result.value.kind == loaded.kind
              && r.result.value.meta.description == form.meta.description
              && r.result.value.meta.manifest == loaded.frontmatter
    ensures id in s.store && r.result.Err? ==> r.state.store == s.store
  {
    var content := env.rewrite(form.content);
    match env.load(id, content)
    case LoadError => Reply(s, Err(LoadFailed))
    case Loaded(handle, kind, frontmatter) =>
      var registry := s.registry[id := handle];
      if id !in s.store then
        Reply(s.(registry := registry), Err(Failed))
      else
        var rec := UpdatedRecord(s.store[id], form, content, kind, frontmatter);
        Reply(Plugins(s.store[id := rec], s.userValves, registry), Ok(rec))
  }

  /** `toggle_function_by_id`: flips `is_active` of an existing function. */
  function ToggleActive(s: Plugins, id: FunctionId): (r: Reply<Plugins, FunctionRecord>)
    ensures id !in s.store ==> r == Reply(s, Err(NotFound))
    ensures id in s.store ==>
              && r.result.Ok?
              && r.result.value.isActive == !s.store[id].isActive
              && r.result.value.(isActive := s.store[id].isActive) == s.store[id]
              && r.state == s.(store := s.store[id := r.result.value])
  {
    if id !in s.store then
      Reply(s, Err(NotFound))
    else
      var rec := s.store[id].(isActive := !s.store[id].isActive);
      Reply(s.(store := s.store[id := rec]), Ok(rec))
  }

  /** `toggle_global_by_id`: flips `is_global` of an existing function. */
  function ToggleGlobal(s: Plugins, id: FunctionId): (r: Reply<Plugins, FunctionRecord>)
    ensures id !in s.store ==> r == Reply(s, Err(NotFound))
    ensures id in s.store ==>
              && r.result.Ok?
              && r.result.value.isGlobal == !s.store[id].isGlobal
              && r.result.value.(isGlobal := s.store[id].isGlobal) == s.store[id]
              && r.state == s.(store := s.store[id := r.result.value])
  {
    if id !in s.store then
      Reply(s, Err(NotFound))
    else
      var rec := s.store[id].(isGlobal := !s.store[id].isGlobal);
      Reply(s.(store := s.store[id := rec]), Ok(rec))
  }

  /**
   * `delete_function_by_id`. `deleteOk` is what the store's delete reports;
   * the registry entry is dropped only when it reports success.
   */
  function DeleteFunction(s: Plugins, id: FunctionId, deleteOk: bool): (r: Reply<Plugins, bool>)
    ensures r.result == Ok(deleteOk)
    ensures deleteOk ==> id !in r.state.store && id !in r.state.registry
    ensures deleteOk ==> r.state.store == s.store - {id} && r.state.registry == s.registry - {id}
    ensures !deleteOk ==> r.state == s
    ensures r.state.userValves == s.userValves
  {
    if deleteOk then
      Reply(Plugins(s.store - {id}, s.userValves, s.registry - {id}), Ok(true))
    else
      Reply(s, Ok(false))
  }

  /**
   * The lazy load the valve handlers share: the cached module if the registry
   * has one, otherwise the module loaded from the stored content, which is
   * then cached. A failed load is not caught and changes nothing.
   */
  function EnsureLoaded(env: Env, s: Plugins, id: FunctionId): (r: Reply<Plugins, Handle>)
    requires id in s.store
    ensures id in s.registry ==> r == Reply(s, Ok(s.registry[id]))
    ensures id !in s.registry && env.load(id, s.store[id].content).LoadError? ==> r == Reply(s, Err(LoadFailed))
    ensures id !in s.registry && env.load(id, s.store[id].content).Loaded? ==>
              r.result == Ok(env.load(id, s.store[id].content).handle)
    ensures r.result.Ok? ==> r.state == s.(registry := s.registry[id := r.result.value])
    ensures r.result.Err? ==> r.state == s && r.result.error == LoadFailed
  {
    if id in s.registry then
      Reply(s, Ok(s.registry[id]))
    else
      match env.load(id, s.store[id].content)
      case LoadError => Reply(s, Err(LoadFailed))
      case Loaded(handle, _, _) => Reply(s.(registry := s.registry[id := handle]), Ok(handle))
  }

  /**
   * `get_function_valves_spec_by_id` (admin tier) and its user-tier twin: the
   * schema of the tier's configuration class, or `None` when the module
   * declares none.
   */
  function ValvesSpec(env: Env, s: Plugins, id: FunctionId, tier: Tier): (r: Reply<Plugins, Option<Schema>>)
    ensures id !in s.store ==> r == Reply(s, Err(NotFound))
    ensures id in s.store ==>
              var loaded := EnsureLoaded(env, s, id);
              && r.state == loaded.state
              && (loaded.result.Ok? ==> r.result == Ok(SchemaOf(loaded.result.value, tier)))
              && (loaded.result.Err? ==> r.result == Err(LoadFailed))
    ensures r.state.store == s.store && r.state.userValves == s.userValves
  {
    if id !in s.store then
      Reply(s, Err(NotFound))
    else
      var loaded := EnsureLoaded(env, s, id);
      match loaded.result
      case Err(e) => Reply(loaded.state, Err(e))
      case Ok(handle) => Reply(loaded.state, Ok(SchemaOf(handle, tier)))
  }

  /** The form with its `None`-valued fields dropped. */
  function DropNulls(form: Dict): (r: Dict)
    ensures forall k :: k in r <==> k in form && !form[k].JNull?
    ensures forall k :: k in r ==> r[k] == form[k]
  {
    map k | k in form && !form[k].JNull? :: form[k]
  }

  /** Writes `valves` as the tier's stored valves for `id`. */
  function StoreValves(s: Plugins, id: FunctionId, tier: Tier, valves: Dict): (r: Plugins)
    requires id in s.store
    ensures StoredValves(r, id, tier) == Some(valves)
    ensures r.store.Keys == s.store.Keys && r.registry == s.registry
  {
    match tier
    case AdminTier => s.(store := s.store[id := s.store[id].(valves := valves)])
    case UserTier(u) => s.(userValves := s.userValves[(id, u) := valves])
  }

  /**
   * `update_function_valves_by_id` (admin tier) and
   * `update_function_user_valves_by_id` (user tier, keyed by the caller).
   * The module is loaded lazily; a module without the tier's class yields
   * NOT_FOUND; the form, with `None` fields dropped, is validated into a fresh
   * configuration object, which replaces the stored valves.
   */
  function UpdateValves(env: Env, s: Plugins, id: FunctionId, tier: Tier, form: Dict): (r: Reply<Plugins, Dict>)
    ensures id !in s.store ==> r == Reply(s, Err(NotFound))
    ensures r.state.store.Keys == s.store.Keys
    ensures forall k :: k in s.store ==> r.state.store[k] == s.store[k].(valves := r.state.store[k].valves)
    ensures tier.UserTier? ==> r.state.store == s.store
    ensures forall k :: k in s.userValves && (tier.AdminTier? || k != (id, tier.user)) ==>
              k in r.state.userValves && r.state.userValves[k] == s.userValves[k]
    ensures forall k :: k in s.registry ==> k in r.state.registry && r.state.registry[k] == s.registry[k]
    ensures r.state.registry.Keys <= s.registry.Keys + {id}
    ensures r.result.Ok? ==>
              && id in s.store
              && id in r.state.registry
              && var h := r.state.registry[id];
              && SchemaOf(h, tier).Some?
              && env.validate(SchemaOf(h, tier).value, DropNulls(form)) == Some(r.result.value)
              && StoredValves(r.state, id, tier) == Some(r.result.value)
    ensures r.result.Err? ==> r.state.store == s.store && r.state.userValves == s.userValves
    ensures tier.AdminTier? ==> forall k :: k in s.store && k != id ==> r.state.store[k] == s.store[k]
    ensures tier.AdminTier? ==> r.state.userValves == s.userValves
    ensures tier.UserTier? ==> r.state.userValves.Keys <= s.userValves.Keys + {(id, tier.user)}
    ensures id in s.store ==>
              var loaded := EnsureLoaded(env, s, id);
              && r.state.registry == loaded.state.registry
              && (loaded.result.Err? ==> r.result == Err(LoadFailed))
              && (loaded.result.Ok? && SchemaOf(loaded.result.value, tier).None? ==> r.result == Err(NotFound))
              && (loaded.result.Ok? && SchemaOf(loaded.result.value, tier).Some? ==>
                    var verdict := env.validate(SchemaOf(loaded.result.value, tier).value, DropNulls(form));
                    && (verdict.None? ==> r.result == Err(ValidationFailed))
                    && (verdict.Some? ==> r.result == Ok(verdict.value)))
  {
    if id !in s.store then
      Reply(s, Err(NotFound))
    else
      var loaded := EnsureLoaded(env, s, id);
      match loaded.result
      case Err(e) => Reply(loaded.state, Err(e))
      case Ok(handle) =>
        match SchemaOf(handle, tier)
        case None => Reply(loaded.state, Err(NotFound))
        case Some(schema) =>
          match env.validate(schema, DropNulls(form))
          case None => Reply(loaded.state, Err(ValidationFailed))
          case Some(valves) => Reply(StoreValves(loaded.state, id, tier, valves), Ok(valves))
  }
}

=== FILE: lifecycle.dfy ===
/**
 * Properties of the function lifecycle that span several requests: the
 * invariants the handlers keep, where the registry can drift from the store,
 * and round trips such as toggling twice.
 */
module Lifecycle {
  import opened Common
  import opened Text
  import opened Functions

  /** Every stored record sits under its own id, an identifier of the form `[a-z0-9_]+`. */
  ghost predicate IdsWellFormed(s: Plugins) {
    forall id :: id in s.store ==>
      s.store[id].id == id && IsIdentifier(id) && IsLowerIdChars(id)
  }

  /** The registry holds `h` for `id` exactly when the stored content of `id` loads to `h`. */
  ghost predicate CachedFromStore(env: Env, s: Plugins, id: FunctionId) {
    && id in s.registry
    && id in s.store
    && env.load(id, s.store[id].content).Loaded?
    && env.load(id, s.store[id].content).handle == s.registry[id]
  }

  /** Every registry entry belongs to a stored function and reflects its current content. */
  ghost predicate Coherent(env: Env, s: Plugins) {
    forall id :: id in s.registry ==> CachedFromStore(env, s, id)
  }

  /** The requests that change the function state. */
  datatype Op =
    | CreateOp(owner: UserId, form: FunctionForm, insertOk: bool)
    | UpdateOp(id: FunctionId, form: FunctionForm)
    | ToggleActiveOp(id: FunctionId)
    | ToggleGlobalOp(id: FunctionId)
    | DeleteOp(id: FunctionId, deleteOk: bool)
    | ValvesSpecOp(id: FunctionId, tier: Tier)
    | UpdateValvesOp(id: FunctionId, tier: Tier, valvesForm: Dict)

  /** The state a request leaves behind, whatever its response. */
  function Apply(env: Env, s: Plugins, op: Op): Plugins {
    match op
    case CreateOp(owner, form, insertOk) => CreateFunction(env, s, owner, form, insertOk).state
    case UpdateOp(id, form) => UpdateFunction(env, s, id, form).state
    case ToggleActiveOp(id) => ToggleActive(s, id).state
    case ToggleGlobalOp(id) => ToggleGlobal(s, id).state
    case DeleteOp(id, deleteOk) => DeleteFunction(s, id, deleteOk).state
    case ValvesSpecOp(id, tier) => ValvesSpec(env, s, id, tier).state
    case UpdateValvesOp(id, tier, form) => UpdateValves(env, s, id, tier, form).state
  }

  /** The state after a sequence of requests. */
  function Run(env: Env, s: Plugins, ops: seq<Op>): Plugins
    decreases |ops|
  {
    if ops == [] then s else Run(env, Apply(env, s, ops[0]), ops[1..])
  }

  /**
   * A request that does not take one of the two paths where the registry is
   * written and the store write then fails: a create whose insert fails, and
   * an update of an id that is not stored.
   */
  predicate StoreWriteSucceeds(s: Plugins, op: Op) {
    match op
    case CreateOp(_, _, insertOk) => insertOk
    case UpdateOp(id, _) => id in s.store
    case _ => true
  }

  /** Every request of the run avoids the failed-store-write paths. */
  ghost predicate RunAvoidsFailedWrites(env: Env, s: Plugins, ops: seq<Op>)
    decreases |ops|
  {
    ops == [] || (StoreWriteSucceeds(s, ops[0]) && RunAvoidsFailedWrites(env, Apply(env, s, ops[0]), ops[1..]))
  }

  /** Every request keeps stored ids well formed: only create adds ids, and only lower-cased identifiers. */
  lemma ApplyKeepsIdsWellFormed(env: Env, s: Plugins, op: Op)
    requires IdsWellFormed(s)
    ensures IdsWellFormed(Apply(env, s, op))
  {
    match op
    case CreateOp(owner, form, insertOk) =>
      if IsIdentifier(form.id) {
        LowerIdentifier(form.id);
      }
    case _ =>
  }

  lemma {:induction false} RunKeepsIdsWellFormed(env: Env, s: Plugins, ops: seq<Op>)
    requires IdsWellFormed(s)
    ensures IdsWellFormed(Run(env, s, ops))
    decreases |ops|
  {
    if ops != [] {
      ApplyKeepsIdsWellFormed(env, s, ops[0]);
      RunKeepsIdsWellFormed(env, Apply(env, s, ops[0]), ops[1..]);
    }
  }

  /** Outside the failed-store-write paths, every request keeps the registry coherent with the store. */
  lemma ApplyKeepsCoherent(env: Env, s: Plugins, op: Op)
    requires Coherent(env, s)
    requires StoreWriteSucceeds(s, op)
    ensures Coherent(env, Apply(env, s, op))
  {
  }

  lemma {:induction false} RunKeepsCoherent(env: Env, s: Plugins, ops: seq<Op>)
    requires Coherent(env, s)
    requires RunAvoidsFailedWrites(env, s, ops)
    ensures Coherent(env, Run(env, s, ops))
    decreases |ops|
  {
    if ops != [] {
      ApplyKeepsCoherent(env, s, ops[0]);
      RunKeepsCoherent(env, Apply(env, s, ops[0]), ops[1..]);
    }
  }

  /** An update of an id that is not stored fails but leaves a registry entry with no record behind. */
  lemma UpdateOfMissingIdLeavesRegistryEntry(env: Env, s: Plugins, id: FunctionId, form: FunctionForm)
    requires id !in s.store
    requires env.load(id, env.rewrite(form.content)).Loaded?
    ensures var r := UpdateFunction(env, s, id, form);
            && r.result == Err(Failed)
            && id in r.state.registry && id !in r.state.store
            && !Coherent(env, r.state)
  {
  }

  /** A create whose insert fails leaves the loaded module in the registry with no record behind. */
  lemma FailedInsertLeavesRegistryEntry(env: Env, s: Plugins, owner: UserId, form: FunctionForm)
    requires IsIdentifier(form.id) && Lower(form.id) !in s.store
    requires env.load(Lower(form.id), env.rewrite(form.content)).Loaded?
    ensures var r := CreateFunction(env, s, owner, form, false);
            && r.result == Err(Failed)
            && Lower(form.id) in r.state.registry && Lower(form.id) !in r.state.store
            && !Coherent(env, r.state)
  {
  }

  /** Creating the same id twice: the second attempt fails with ID_TAKEN and changes nothing. */
  lemma CreateTwiceIsTaken(env: Env, s: Plugins, owner: UserId, form: FunctionForm, other: FunctionForm,
                           insertOk: bool)
    requires CreateFunction(env, s, owner, form, true).result.Ok?
    requires Lower(other.id) == Lower(form.id) && IsIdentifier(other.id)
    ensures var s1 := CreateFunction(env, s, owner, form, true).state;
            CreateFunction(env, s1, owner, other, insertOk) == Reply(s1, Err(IdTaken))
  {
  }

  /** Toggling `is_active` twice restores the state and answers with the original record. */
  lemma ToggleActiveTwice(s: Plugins, id: FunctionId)
    requires id in s.store
    ensures var r1 := ToggleActive(s, id);
            var r2 := ToggleActive(r1.state, id);
            r2.state == s && r2.result == Ok(s.store[id])
  {
  }

  /** Toggling `is_global` twice restores the state and answers with the original record. */
  lemma ToggleGlobalTwice(s: Plugins, id: FunctionId)
    requires id in s.store
    ensures var r1 := ToggleGlobal(s, id);
            var r2 := ToggleGlobal(r1.state, id);
            r2.state == s && r2.result == Ok(s.store[id])
  {
  }

  /** Right after a successful update, the registry serves the module loaded from the new content. */
  lemma UpdateServesNewModule(env: Env, s: Plugins, id: FunctionId, form: FunctionForm)
    requires UpdateFunction(env, s, id, form).result.Ok?
    ensures var s1 := UpdateFunction(env, s, id, form).state;
            && EnsureLoaded(env, s1, id).result == Ok(env.load(id, s1.store[id].content).handle)
            && CachedFromStore(env, s1, id)
  {
  }

  /** After a successful delete the function is gone from both maps and every lookup reports NOT_FOUND. */
  lemma DeleteThenNotFound(env: Env, s: Plugins, id: FunctionId, tier: Tier, form: Dict)
    ensures var s1 := DeleteFunction(s, id, true).state;
            && id !in s1.store && id !in s1.registry
            && ToggleActive(s1, id).result == Err(NotFound)
            && ValvesSpec(env, s1, id, tier).result == Err(NotFound)
            && UpdateValves(env, s1, id, tier, form).result == Err(NotFound)
  {
  }

  /** The lazy load caches: asking for the schema a second time finds the module in the registry. */
  lemma ValvesSpecCaches(env: Env, s: Plugins, id: FunctionId, tier: Tier)
    requires ValvesSpec(env, s, id, tier).result.Ok?
    ensures var r1 := ValvesSpec(env, s, id, tier);
            && id in r1.state.registry
            && ValvesSpec(env, r1.state, id, tier) == Reply(r1.state, r1.result)
  {
  }

  /** A valve update that fails validation leaves the stored valves of every tier as they were. */
  lemma RejectedValvesKeepStored(env: Env, s: Plugins, id: FunctionId, tier: Tier, form: Dict, t: Tier)
    requires UpdateValves(env, s, id, tier, form).result == Err(ValidationFailed)
    ensures StoredValves(UpdateValves(env, s, id, tier, form).state, id, t) == StoredValves(s, id, t)
  {
  }

  /** A user's valve update is stored under (function, that user) and leaves everyone else's valves alone. */
  lemma UserValvesKeyedByUser(env: Env, s: Plugins, id: FunctionId, u: UserId, form: Dict)
    requires UpdateValves(env, s, id, UserTier(u), form).result.Ok?
    ensures var r := UpdateValves(env, s, id, UserTier(u), form);
            && (id, u) in r.state.userValves
            && r.state.userValves[(id, u)] == r.result.value
            && r.state.store == s.store
            && r.state.userValves.Keys == s.userValves.Keys + {(id, u)}
            && forall k :: k in s.userValves && k != (id, u) ==> r.state.userValves[k] == s.userValves[k]
  {
  }
}

=== FILE: models.dfy ===
/**
 * The model router's decisions over the store of workspace models: who may
 * list, create, read, toggle, update and delete a model.
 */
module Models {
  import opened Common
  import opened Access

  /** A workspace model; `body` holds its name, base model, meta and params. */
  datatype Model = Model(id: string, ownerId: UserId, body: Dict, acl: AccessControl, isActive: bool)

  datatype ModelForm = ModelForm(id: string, body: Dict, acl: AccessControl, isActive: bool)

  type ModelStore = map<string, Model>

  /** The permission a non-admin needs to create a model. */
  const CreateModelsKey: string := "workspace.models"

  /** The access the store's per-user listing asks for by default. */
  const ListingPerm: Perm := Write

  /** `get_models`: every model for an admin, otherwise those the caller owns or may access. */
  function ListModels(store: ModelStore, caller: Caller, hasAccess: AccessOracle): (r: set<Model>)
    ensures r <= store.Values
    ensures IsAdmin(caller) ==> r == store.Values
    ensures forall m :: m in store.Values ==>
              (m in r <==> IsAdmin(caller) || m.ownerId == caller.id || hasAccess(caller.id, ListingPerm, m.acl))
  {
    if IsAdmin(caller) then store.Values
    else set m | m in store.Values && MayUse(caller, m.ownerId, m.acl, ListingPerm, hasAccess)
  }

  /**
   * `create_new_model`: a non-admin needs the models workspace permission;
   * a taken id is MODEL_ID_TAKEN; `insertOk` is whether the insert returns
   * the new model.
   */
  function CreateModel(store: ModelStore, caller: Caller, form: ModelForm,
                       hasPermission: PermissionOracle, insertOk: bool): (r: Reply<ModelStore, Model>)
    ensures !MayCreate(caller, CreateModelsKey, hasPermission) ==> r == Reply(store, Err(Unauthorized))
    ensures MayCreate(caller, CreateModelsKey, hasPermission) && form.id in store ==>
              r == Reply(store, Err(ModelIdTaken))
    ensures r.result.Ok? <==> MayCreate(caller, CreateModelsKey, hasPermission) && form.id !in store && insertOk
    ensures r.result.Ok? ==>
              && r.result.value == Model(form.id, caller.id, form.body, form.acl, form.isActive)
              && r.state == store[form.id := r.result.value]
    ensures MayCreate(caller, CreateModelsKey, hasPermission) && form.id !in store && !insertOk ==>
              r == Reply(store, Err(Failed))
    ensures r.result == Err(ModelIdTaken) ==> form.id in store
    ensures r.result.Err? ==> r.state == store
  {
    if !MayCreate(caller, CreateModelsKey, hasPermission) then
      Reply(store, Err(Unauthorized))
    else if form.id in store then
      Reply(store, Err(ModelIdTaken))
    else if !insertOk then
      Reply(store, Err(Failed))
    else
      var m := Model(form.id, caller.id, form.body, form.acl, form.isActive);
      Reply(store[form.id := m], Ok(m))
  }

  /**
   * `get_model_by_id`: a missing model is NOT_FOUND; an existing model the
   * caller may not read is answered with `None`, not with an error.
   */
  function GetModel(store: ModelStore, caller: Caller, id: string, hasAccess: AccessOracle): (r: Result<Option<Model>>)
    ensures id !in store ==> r == Err(NotFound)
    ensures id in store ==> r.Ok?
    ensures id in store ==>
              (r.value.Some? <==> MayUse(caller, store[id].ownerId, store[id].acl, Read, hasAccess))
    ensures r.Ok? && r.value.Some? ==> id in store && r.value.value == store[id]
  {
    if id !in store then Err(NotFound)
    else if MayUse(caller, store[id].ownerId, store[id].acl, Read, hasAccess) then Ok(Some(store[id]))
    else Ok(None)
  }

  /** `toggle_model_by_id`: flips `is_active` for an admin, the owner or a caller with write access. */
  function ToggleModel(store: ModelStore, caller: Caller, id: string, hasAccess: AccessOracle): (r: Reply<ModelStore, Model>)
    ensures id !in store ==> r == Reply(store, Err(NotFound))
    ensures id in store && !MayUse(caller, store[id].ownerId, store[id].acl, Write, hasAccess) ==>
              r == Reply(store, Err(Unauthorized))
    ensures r.result.Ok? <==> id in store && MayUse(caller, store[id].ownerId, store[id].acl, Write, hasAccess)
    ensures r.result.Ok? ==>
              && r.result.value.isActive == !store[id].isActive
              && r.result.value.(isActive := store[id].isActive) == store[id]
              && r.state == store[id := r.result.value]
  {
    if id !in store then
      Reply(store, Err(NotFound))
    else if !MayUse(caller, store[id].ownerId, store[id].acl, Write, hasAccess) then
      Reply(store, Err(Unauthorized))
    else
      var m := store[id].(isActive := !store[id].isActive);
      Reply(store[id := m], Ok(m))
  }

  /**
   * `update_model_by_id`: only existence is checked; any caller may update
   * any model. The model keeps its id and owner and takes the form's fields.
   */
  function UpdateModel(store: ModelStore, caller: Caller, id: string, form: ModelForm): (r: Reply<ModelStore, Model>)
    ensures id !in store ==> r == Reply(store, Err(NotFound))
    ensures id in store ==>
              && r.result.Ok?
              && r.result.value.id == store[id].id
              && r.result.value.ownerId == store[id].ownerId
              && r.result.value.body == form.body
              && r.result.value.acl == form.acl
              && r.result.value.isActive == form.isActive
              && r.state == store[id := r.result.value]
  {
    if id !in store then
      Reply(store, Err(NotFound))
    else
      var m := store[id].(body := form.body, acl := form.acl, isActive := form.isActive);
      Reply(store[id := m], Ok(m))
  }

  /** Whoever asks, an update has the same effect: the router checks no ownership or access. */
  lemma UpdateModelIgnoresCaller(store: ModelStore, a: Caller, b: Caller, id: string, form: ModelForm)
    ensures UpdateModel(store, a, id, form) == UpdateModel(store, b, id, form)
  {
  }

  /**
   * `delete_model_by_id`: NOT_FOUND for a missing model, UNAUTHORIZED unless
   * the caller owns it or is an admin; `deleteOk` is the store's answer.
   */
  function DeleteModel(store: ModelStore, caller: Caller, id: string, deleteOk: bool): (r: Reply<ModelStore, bool>)
    ensures id !in store ==> r == Reply(store, Err(NotFound))
    ensures id in store && !OwnerOrAdmin(caller, store[id].ownerId) ==> r == Reply(store, Err(Unauthorized))
    ensures r.result.Ok? <==> id in store && OwnerOrAdmin(caller, store[id].ownerId)
    ensures r.result.Ok? ==> r.result.value == deleteOk
    ensures r.state == (if r.result == Ok(true) then store - {id} else store)
  {
    if id !in store then
      Reply(store, Err(NotFound))
    else if !OwnerOrAdmin(caller, store[id].ownerId) then
      Reply(store, Err(Unauthorized))
    else if deleteOk then
      Reply(store - {id}, Ok(true))
    else
      Reply(store, Ok(false))
  }

  /** Only the owner or an admin can remove a model; everyone else's deletes leave it in place. */
  lemma DeleteSparesOthersModels(store: ModelStore, caller: Caller, id: string, deleteOk: bool, k: string)
    requires k in store && !OwnerOrAdmin(caller, store[k].ownerId)
    ensures k in DeleteModel(store, caller, id, deleteOk).state
  {
  }

  /** A model its creator has just created is what the creator reads back under its id. */
  lemma CreatedModelIsReadable(store: ModelStore, caller: Caller, form: ModelForm,
                               hasPermission: PermissionOracle, hasAccess: AccessOracle)
    requires CreateModel(store, caller, form, hasPermission, true).result.Ok?
    ensures var r := CreateModel(store, caller, form, hasPermission, true);
            GetModel(r.state, caller, form.id, hasAccess) == Ok(Some(r.result.value))
  {
  }

  /** Toggling a model twice restores the store and answers with the original model. */
  lemma ToggleModelTwice(store: ModelStore, caller: Caller, id: string, hasAccess: AccessOracle)
    requires ToggleModel(store, caller, id, hasAccess).result.Ok?
    ensures var r1 := ToggleModel(store, caller, id, hasAccess);
            var r2 := ToggleModel(r1.state, caller, id, hasAccess);
            r2.state == store && r2.result == Ok(store[id])
  {
  }

  /**
   * The listing and the toggle agree: a stored model is listed for a caller
   * exactly when that caller may toggle it (both ask for write access).
   */
  lemma ListedIffTogglable(store: ModelStore, caller: Caller, id: string, hasAccess: AccessOracle)
    requires id in store
    ensures store[id] in ListModels(store, caller, hasAccess)
            <==> ToggleModel(store, caller, id, hasAccess).result.Ok?
  {
  }

  /** After an update, an admin reads back a model carrying the form's body, access control and flag. */
  lemma UpdatedModelIsRead(store: ModelStore, caller: Caller, admin: Caller, id: string, form: ModelForm,
                           hasAccess: AccessOracle)
    requires id in store
    requires IsAdmin(admin)
    ensures var r := UpdateModel(store, caller, id, form);
            && GetModel(r.state, admin, id, hasAccess) == Ok(Some(r.result.value))
            && r.result.value.body == form.body
            && r.result.value.acl == form.acl
            && r.result.value.isActive == form.isActive
  {
  }
}

=== FILE: prompts.dfy ===
/**
 * The prompt router's decisions over the prompt store. Prompts are stored
 * under their command; the per-command endpoints receive the command without
 * its leading slash and look up `"/" + command`.
 */
module Prompts {
  import opened Common
  import opened Access

  datatype Prompt = Prompt(command: string, ownerId: UserId, title: string, content: string, acl: AccessControl)

  datatype PromptForm = PromptForm(command: string, title: string, content: string, acl: AccessControl)

  type PromptStore = map<string, Prompt>

  /** The permission a non-admin needs to create a prompt. */
  const CreatePromptsKey: string := "workspace.prompts"

  /** The store key a per-command endpoint looks up. */
  function Key(command: string): (k: string)
    ensures |k| == |command| + 1 && k[0] == '/' && k[1..] == command
  {
    "/" + command
  }

  /** Every prompt is stored under its own command. */
  ghost predicate KeyedByCommand(store: PromptStore) {
    forall k :: k in store ==> store[k].command == k
  }

  /**
   * `get_prompts` (with `Read`) and `get_prompt_list` (with `Write`): every
   * prompt for an admin, otherwise those the caller owns or may access with
   * the given permission.
   */
  function ListPrompts(store: PromptStore, caller: Caller, perm: Perm, hasAccess: AccessOracle): (r: set<Prompt>)
    ensures r <= store.Values
    ensures IsAdmin(caller) ==> r == store.Values
    ensures forall p :: p in store.Values ==>
              (p in r <==> IsAdmin(caller) || p.ownerId == caller.id || hasAccess(caller.id, perm, p.acl))
  {
    if IsAdmin(caller) then store.Values
    else set p | p in store.Values && MayUse(caller, p.ownerId, p.acl, perm, hasAccess)
  }

  /**
   * `create_new_prompt`: a non-admin needs the prompts workspace permission;
   * the form's command, used as given, must be free (else COMMAND_TAKEN).
   */
  function CreatePrompt(store: PromptStore, caller: Caller, form: PromptForm,
                        hasPermission: PermissionOracle, insertOk: bool): (r: Reply<PromptStore, Prompt>)
    ensures !MayCreate(caller, CreatePromptsKey, hasPermission) ==> r == Reply(store, Err(Unauthorized))
    ensures MayCreate(caller, CreatePromptsKey, hasPermission) && form.command in store ==>
              r == Reply(store, Err(CommandTaken))
    ensures r.result.Ok? <==> MayCreate(caller, CreatePromptsKey, hasPermission) && form.command !in store && insertOk
    ensures r.result.Ok? ==>
              && r.result.value == Prompt(form.command, caller.id, form.title, form.content, form.acl)
              && r.state == store[form.command := r.result.value]
    ensures MayCreate(caller, CreatePromptsKey, hasPermission) && form.command !in store && !insertOk ==>
              r == Reply(store, Err(Failed))
    ensures r.result == Err(CommandTaken) ==> form.command in store
    ensures r.result.Err? ==> r.state == store
  {
    if !MayCreate(caller, CreatePromptsKey, hasPermission) then
      Reply(store, Err(Unauthorized))
    else if form.command in store then
      Reply(store, Err(CommandTaken))
    else if !insertOk then
      Reply(store, Err(Failed))
    else
      var p := Prompt(form.command, caller.id, form.title, form.content, form.acl);
      Reply(store[form.command := p], Ok(p))
  }

  /**
   * `get_prompt_by_command`: NOT_FOUND for a missing prompt; `None` when the
   * caller is neither admin nor owner and lacks read access.
   */
  function GetPrompt(store: PromptStore, caller: Caller, command: string, hasAccess: AccessOracle): (r: Result<Option<Prompt>>)
    ensures Key(command) !in store ==> r == Err(NotFound)
    ensures Key(command) in store ==>
              && r.Ok?
              && (r.value.Some? <==> MayUse(caller, store[Key(command)].ownerId, store[Key(command)].acl, Read, hasAccess))
              && (r.value.Some? ==> r.value.value == store[Key(command)])
  {
    var key := Key(command);
    if key !in store then Err(NotFound)
    else if MayUse(caller, store[key].ownerId, store[key].acl, Read, hasAccess) then Ok(Some(store[key]))
    else Ok(None)
  }

  /**
   * `update_prompt_by_command`: NOT_FOUND for a missing prompt,
   * ACCESS_PROHIBITED unless the caller owns it or is an admin; title,
   * content and access control are replaced, command and owner kept.
   */
  function UpdatePrompt(store: PromptStore, caller: Caller, command: string, form: PromptForm): (r: Reply<PromptStore, Prompt>)
    ensures Key(command) !in store ==> r == Reply(store, Err(NotFound))
    ensures Key(command) in store && !OwnerOrAdmin(caller, store[Key(command)].ownerId) ==>
              r == Reply(store, Err(AccessProhibited))
    ensures r.result.Ok? <==> Key(command) in store && OwnerOrAdmin(caller, store[Key(command)].ownerId)
    ensures r.result.Ok? ==>
              var prev := store[Key(command)];
              && r.result.value == Prompt(prev.command, prev.ownerId, form.title, form.content, form.acl)
              && r.state == store[Key(command) := r.result.value]
  {
    var key := Key(command);
    if key !in store then
      Reply(store, Err(NotFound))
    else if !OwnerOrAdmin(caller, store[key].ownerId) then
      Reply(store, Err(AccessProhibited))
    else
      var p := store[key].(title := form.title, content := form.content, acl := form.acl);
      Reply(store[key := p], Ok(p))
  }

  /**
   * `delete_prompt_by_command`: the same checks as update; `deleteOk` is the
   * store's answer.
   */
  function DeletePrompt(store: PromptStore, caller: Caller, command: string, deleteOk: bool): (r: Reply<PromptStore, bool>)
    ensures Key(command) !in store ==> r == Reply(store, Err(NotFound))
    ensures Key(command) in store && !OwnerOrAdmin(caller, store[Key(command)].ownerId) ==>
              r == Reply(store, Err(AccessProhibited))
    ensures r.result.Ok? <==> Key(command) in store && OwnerOrAdmin(caller, store[Key(command)].ownerId)
    ensures r.result.Ok? ==> r.result.value == deleteOk
    ensures r.state == (if r.result == Ok(true) then store - {Key(command)} else store)
  {
    var key := Key(command);
    if key !in store then
      Reply(store, Err(NotFound))
    else if !OwnerOrAdmin(caller, store[key].ownerId) then
      Reply(store, Err(AccessProhibited))
    else if deleteOk then
      Reply(store - {key}, Ok(true))
    else
      Reply(store, Ok(false))
  }

  /** Create, update and delete keep every prompt stored under its own command. */
  lemma WritesKeepKeyedByCommand(store: PromptStore, caller: Caller, form: PromptForm, command: string,
                                 hasPermission: PermissionOracle, ok: bool)
    requires KeyedByCommand(store)
    ensures KeyedByCommand(CreatePrompt(store, caller, form, hasPermission, ok).state)
    ensures KeyedByCommand(UpdatePrompt(store, caller, command, form).state)
    ensures KeyedByCommand(DeletePrompt(store, caller, command, ok).state)
  {
  }

  /**
   * The read listing and the per-command read agree: a stored prompt is
   * listed exactly when fetching it by its command returns it.
   */
  lemma ListedIffReadable(store: PromptStore, caller: Caller, command: string, hasAccess: AccessOracle)
    requires Key(command) in store
    ensures store[Key(command)] in ListPrompts(store, caller, Read, hasAccess)
            <==> GetPrompt(store, caller, command, hasAccess) == Ok(Some(store[Key(command)]))
  {
  }

  /** A prompt created with command `"/" + c` is what the owner gets back for `c`. */
  lemma CreatedPromptIsFound(store: PromptStore, caller: Caller, form: PromptForm, c: string,
                             hasPermission: PermissionOracle, hasAccess: AccessOracle)
    requires form.command == Key(c)
    requires CreatePrompt(store, caller, form, hasPermission, true).result.Ok?
    ensures var r := CreatePrompt(store, caller, form, hasPermission, true);
            GetPrompt(r.state, caller, c, hasAccess) == Ok(Some(r.result.value))
  {
  }
}

=== FILE: text.dfy ===
/**
 * The string operations the routers rely on: Python's `str.isidentifier`,
 * `str.lower`, `str.startswith` and `str.replace(old, "")`, restricted to the
 * ASCII range.
 */
module Text {

  predicate IsAsciiLetter(c: char) {
    ('a' <= c <= 'z') || ('A' <= c <= 'Z')
  }

  predicate IsAsciiDigit(c: char) {
    '0' <= c <= '9'
  }

  /** Characters that may start an identifier. */
  predicate IsIdStart(c: char) {
    IsAsciiLetter(c) || c == '_'
  }

  /** Characters that may follow the first character of an identifier. */
  predicate IsIdContinue(c: char) {
    IsIdStart(c) || IsAsciiDigit(c)
  }

  /**
   * `s.isidentifier()`: a start character followed by continue characters;
   * equivalently, non-empty, no leading digit, and only letters, digits and
   * underscores.
   */
  function IsIdentifier(s: string): (b: bool)
    ensures b <==> |s| > 0 && !IsAsciiDigit(s[0]) && forall i :: 0 <= i < |s| ==> IsIdContinue(s[i])
  {
    && |s| > 0
    && IsIdStart(s[0])
    && forall i :: 1 <= i < |s| ==> IsIdContinue(s[i])
  }

  /**
   * The id shape the create handler's error message announces ("only
   * alphanumeric characters and underscores"), in lower case: `[a-z0-9_]+`.
   */
  predicate IsLowerIdChars(s: string) {
    && |s| > 0
    && forall i :: 0 <= i < |s| ==> ('a' <= s[i] <= 'z' || IsAsciiDigit(s[i]) || s[i] == '_')
  }

  function LowerChar(c: char): char {
    if 'A' <= c <= 'Z' then (c as int + 32) as char else c
  }

  /** `s.lower()`: every upper-case letter replaced by its lower-case form. */
  function Lower(s: string): (r: string)
    ensures |r| == |s|
    ensures forall i :: 0 <= i < |s| ==> r[i] == LowerChar(s[i])
  {
    if s == [] then [] else [LowerChar(s[0])] + Lower(s[1..])
  }

  /** Lower-casing twice is lower-casing once. */
  lemma LowerIdempotent(s: string)
    ensures Lower(Lower(s)) == Lower(s)
  {
  }

  /** Lower-casing keeps an ASCII identifier an identifier, and the result has the `[a-z0-9_]+` shape. */
  lemma LowerIdentifier(s: string)
    requires IsIdentifier(s)
    ensures IsIdentifier(Lower(s))
    ensures IsLowerIdChars(Lower(s))
    ensures !IsAsciiDigit(Lower(s)[0])
  {
  }

  /** The converse fails: `[a-z0-9_]+` admits ids that are not identifiers. */
  lemma DigitHeadIsNotIdentifier()
    ensures IsLowerIdChars("1f") && !IsIdentifier("1f")
  {
  }

  predicate StartsWith(s: string, p: string) {
    |p| <= |s| && s[..|p|] == p
  }

  /** Whether `p` occurs in `s` at position `i`. */
  predicate OccursAt(s: string, p: string, i: int) {
    0 <= i <= |s| - |p| && s[i..i + |p|] == p
  }

  /** Whether `p` occurs anywhere in `s`. */
  ghost predicate Occurs(s: string, p: string) {
    exists i :: OccursAt(s, p, i)
  }

  /**
   * `s.replace(p, "")`: scans left to right and drops every non-overlapping
   * occurrence of `p`.
   */
  function RemoveAll(s: string, p: string): (r: string)
    requires |p| > 0
    ensures |r| <= |s|
    decreases |s|
  {
    if |s| < |p| then s
    else if s[..|p|] == p then RemoveAll(s[|p|..], p)
    else [s[0]] + RemoveAll(s[1..], p)
  }

  /** Removing a pattern that does not occur changes nothing. */
  lemma {:induction false} RemoveAllAbsent(s: string, p: string)
    requires |p| > 0
    requires !Occurs(s, p)
    ensures RemoveAll(s, p) == s
    decreases |s|
  {
    if |s| < |p| {
    } else {
      assert s[0..0 + |p|] == s[..|p|];
      assert !OccursAt(s, p, 0);
      forall i | OccursAt(s[1..], p, i)
        ensures OccursAt(s, p, i + 1)
      {
        assert s[i + 1..i + 1 + |p|] == s[1..][i..i + |p|];
      }
      RemoveAllAbsent(s[1..], p);
      assert [s[0]] + s[1..] == s;
    }
  }

  /**
   * The scan keeps everything before the leftmost occurrence, drops that
   * occurrence and resumes right after it.
   */
  lemma {:induction false} RemoveAllFirst(x: string, p: string, y: string)
    requires |p| > 0
    requires forall i :: 0 <= i < |x| ==> !OccursAt(x + p + y, p, i)
    ensures RemoveAll(x + p + y, p) == x + RemoveAll(y, p)
    decreases |x|
  {
    var s := x + p + y;
    if x == [] {
      assert s == p + y;
      assert s[..|p|] == p && s[|p|..] == y;
    } else {
      assert !OccursAt(s, p, 0);
      assert s[0..0 + |p|] == s[..|p|];
      assert s[1..] == x[1..] + p + y;
      forall i | 0 <= i < |x[1..]|
        ensures !OccursAt(x[1..] + p + y, p, i)
      {
        assert !OccursAt(s, p, i + 1);
        assert s[i + 1..i + 1 + |p|] == s[1..][i..i + |p|];
      }
      RemoveAllFirst(x[1..], p, y);
      assert [x[0]] + (x[1..] + RemoveAll(y, p)) == x + RemoveAll(y, p);
    }
  }

  /** A leading occurrence is dropped and scanning resumes right after it. */
  lemma RemoveAllLeading(p: string, x: string)
    requires |p| > 0
    ensures RemoveAll(p + x, p) == RemoveAll(x, p)
  {
  }
}

=== FILE: users.dfy ===
/**
 * The user router's decisions: role changes, self-service info updates, the
 * resolution of shared-chat ids, admin edits and deletion, and the default
 * permissions.
 */
module Users {
  import opened Common
  import opened Text
  import Evaluations

  datatype User = User(
    id: UserId,
    name: string,
    email: string,
    role: Role,
    profileImageUrl: string,
    info: Option<Dict>,
    createdAt: int
  )

  /** The user store and the owner of every chat. */
  datatype Directory = Directory(
    users: map<UserId, User>,
    chatOwners: map<string, UserId>
  )

  /**
   * `Users.get_first_user()`: a stored user created no later than any other.
   * It is asked of the store on every request, so it changes when that user
   * is deleted.
   */
  predicate IsFirstUser(d: Directory, id: UserId) {
    id in d.users && forall v :: v in d.users ==> d.users[id].createdAt <= d.users[v].createdAt
  }

  /** The prefix that marks a shared-chat id where a user id is expected. */
  const SharedPrefix: string := "shared-"

  /** `update_user_permissions`: the submitted permissions replace the defaults wholesale. */
  function SetDefaultPermissions(cfg: AppConfig, form: UserPermissions): (r: Reply<AppConfig, UserPermissions>)
    ensures r.result == Ok(form)
    ensures r.state.userPermissions == form
    ensures r.state.(userPermissions := cfg.userPermissions) == cfg
  {
    Reply(cfg.(userPermissions := form), Ok(form))
  }

  /**
   * `update_user_role`: an admin may change any role but their own and the
   * first user's. The first user is looked up only when the target is not the
   * caller; with no user stored that lookup yields `None` and the handler
   * fails. The store answers `None` for an unknown target.
   */
  function UpdateRole(d: Directory, session: Caller, target: UserId, role: Role): (r: Reply<Directory, Option<User>>)
    ensures session.id == target || IsFirstUser(d, target) ==> r == Reply(d, Err(ActionProhibited))
    ensures session.id != target && d.users == map[] ==> r == Reply(d, Err(Failed))
    ensures r.result.Ok? <==> session.id != target && d.users != map[] && !IsFirstUser(d, target)
    ensures r.result.Err? ==> r.state == d
    ensures r.result.Ok? ==> (r.result.value.Some? <==> target in d.users)
    ensures r.result.Ok? && target in d.users ==>
              && r.result.value == Some(d.users[target].(role := role))
              && r.state == d.(users := d.users[target := d.users[target].(role := role)])
    ensures target !in d.users ==> r.state == d
  {
    if session.id == target then
      Reply(d, Err(ActionProhibited))
    else if d.users == map[] then
      Reply(d, Err(Failed))
    else if IsFirstUser(d, target) then
      Reply(d, Err(ActionProhibited))
    else if target in d.users then
      var u := d.users[target].(role := role);
      Reply(d.(users := d.users[target := u]), Ok(Some(u)))
    else
      Reply(d, Ok(None))
  }

  /** Neither the session user's role nor the first user's role can be changed by a role update. */
  lemma RoleUpdateSparesSelfAndFirst(d: Directory, session: Caller, target: UserId, role: Role, u: UserId)
    requires u == session.id || IsFirstUser(d, u)
    requires u in d.users
    ensures var r := UpdateRole(d, session, target, role);
            u in r.state.users && r.state.users[u] == d.users[u]
  {
  }

  /** A user's info, `None` read as the empty dictionary. */
  function InfoOf(u: User): Dict {
    if u.info.Some? then u.info.value else map[]
  }

  /**
   * `update_user_info_by_session_user`: the session user's info, overridden
   * key by key by the form.
   */
  function UpdateInfo(d: Directory, session: Caller, form: Dict): (r: Reply<Directory, Dict>)
    ensures session.id !in d.users ==> r == Reply(d, Err(UserNotFound))
    ensures session.id in d.users ==>
              var prev := InfoOf(d.users[session.id]);
              && r.result.Ok?
              && r.result.value.Keys == prev.Keys + form.Keys
              && (forall k :: k in form ==> r.result.value[k] == form[k])
              && (forall k :: k in prev && k !in form ==> r.result.value[k] == prev[k])
              && r.state == d.(users := d.users[session.id := d.users[session.id].(info := Some(r.result.value))])
  {
    if session.id !in d.users then
      Reply(d, Err(UserNotFound))
    else
      var u := d.users[session.id];
      var info := InfoOf(u) + form;
      Reply(d.(users := d.users[session.id := u.(info := Some(info))]), Ok(info))
  }

  /** Submitting the same info form twice is the same as submitting it once. */
  lemma UpdateInfoIdempotent(d: Directory, session: Caller, form: Dict)
    requires session.id in d.users
    ensures var r1 := UpdateInfo(d, session, form);
            UpdateInfo(r1.state, session, form) == r1
  {
    var r1 := UpdateInfo(d, session, form);
    var r2 := UpdateInfo(r1.state, session, form);
    assert r2.result.value == r1.result.value;
    assert r1.state.users[session.id := r1.state.users[session.id]] == r1.state.users;
  }

  /**
   * The user id a `get_user_by_id` request refers to: an id starting with
   * `shared-` names a chat (every `shared-` removed) and stands for its owner.
   */
  function ResolveUserId(d: Directory, userId: string): (r: Result<UserId>)
    ensures !StartsWith(userId, SharedPrefix) ==> r == Ok(userId)
    ensures StartsWith(userId, SharedPrefix) ==>
              var chatId := RemoveAll(userId, SharedPrefix);
              && (r.Ok? <==> chatId in d.chatOwners)
              && (r.Ok? ==> r.value == d.chatOwners[chatId])
    ensures r.Err? ==> r.error == UserNotFound
  {
    if StartsWith(userId, SharedPrefix) then
      var chatId := RemoveAll(userId, SharedPrefix);
      if chatId in d.chatOwners then Ok(d.chatOwners[chatId]) else Err(UserNotFound)
    else
      Ok(userId)
  }

  /** A shared link to a chat whose id holds no `shared-` resolves to that chat's owner. */
  lemma SharedLinkResolvesToOwner(d: Directory, chatId: string)
    requires !Occurs(chatId, SharedPrefix)
    ensures ResolveUserId(d, SharedPrefix + chatId)
            == (if chatId in d.chatOwners then Ok(d.chatOwners[chatId]) else Err(UserNotFound))
  {
    assert StartsWith(SharedPrefix + chatId, SharedPrefix);
    RemoveAllLeading(SharedPrefix, chatId);
    RemoveAllAbsent(chatId, SharedPrefix);
  }

  /** The public view of a user: name and profile image. */
  datatype UserResponse = UserResponse(name: string, profileImageUrl: string)

  /** `get_user_by_id`. */
  function GetUserById(d: Directory, userId: string): (r: Result<UserResponse>)
    ensures r.Ok? <==> ResolveUserId(d, userId).Ok? && ResolveUserId(d, userId).value in d.users
    ensures r.Ok? ==>
              var u := d.users[ResolveUserId(d, userId).value];
              r.value == UserResponse(u.name, u.profileImageUrl)
    ensures r.Err? ==> r.error == UserNotFound
  {
    match ResolveUserId(d, userId)
    case Err(e) => Err(e)
    case Ok(id) =>
      if id in d.users then Ok(UserResponse(d.users[id].name, d.users[id].profileImageUrl))
      else Err(UserNotFound)
  }

  datatype UserUpdateForm = UserUpdateForm(name: string, email: string, profileImageUrl: string, password: string)

  /** Whether some stored user has exactly this email. */
  predicate EmailInUse(d: Directory, email: string) {
    exists id :: id in d.users && d.users[id].email == email
  }

  /**
   * `update_user_by_id`: an unknown user is USER_NOT_FOUND; a new email
   * (lower-cased) that another user already has is EMAIL_TAKEN; otherwise
   * name, lower-cased email and profile image are written.
   */
  function UpdateUserById(d: Directory, userId: UserId, form: UserUpdateForm): (r: Reply<Directory, User>)
    ensures userId !in d.users ==> r == Reply(d, Err(UserNotFound))
    ensures userId in d.users && Lower(form.email) != d.users[userId].email && EmailInUse(d, Lower(form.email)) ==>
              r == Reply(d, Err(EmailTaken))
    ensures r.result.Ok? <==>
              userId in d.users && (Lower(form.email) == d.users[userId].email || !EmailInUse(d, Lower(form.email)))
    ensures r.result.Ok? ==>
              && r.result.value.email == Lower(form.email)
              && r.result.value == d.users[userId].(name := form.name, email := Lower(form.email),
                                                    profileImageUrl := form.profileImageUrl)
              && r.state == d.(users := d.users[userId := r.result.value])
    ensures r.result.Err? ==> r.state == d
  {
    if userId !in d.users then
      Reply(d, Err(UserNotFound))
    else
      var u := d.users[userId];
      var email := Lower(form.email);
      if email != u.email && EmailInUse(d, email) then
        Reply(d, Err(EmailTaken))
      else
        var u' := u.(name := form.name, email := email, profileImageUrl := form.profileImageUrl);
        Reply(d.(users := d.users[userId := u']), Ok(u'))
  }

  /** No two stored users share an email. */
  ghost predicate EmailsUnique(d: Directory) {
    forall a, b :: a in d.users && b in d.users && a != b ==> d.users[a].email != d.users[b].email
  }

  /** Editing a user keeps emails unique, and the stored email is lower-case. */
  lemma UpdateUserKeepsEmailsUnique(d: Directory, userId: UserId, form: UserUpdateForm)
    requires EmailsUnique(d)
    ensures var r := UpdateUserById(d, userId, form);
            && EmailsUnique(r.state)
            && (r.result.Ok? ==> Lower(r.result.value.email) == r.result.value.email)
  {
    LowerIdempotent(form.email);
  }

  /** Repeating a successful edit with the same form changes nothing and is not EMAIL_TAKEN. */
  lemma UpdateUserTwiceIsStable(d: Directory, userId: UserId, form: UserUpdateForm)
    requires UpdateUserById(d, userId, form).result.Ok?
    ensures var r1 := UpdateUserById(d, userId, form);
            UpdateUserById(r1.state, userId, form) == r1
  {
    var r1 := UpdateUserById(d, userId, form);
    assert r1.state.users[userId := r1.result.value] == r1.state.users;
  }

  /**
   * `delete_user_by_id`: an admin cannot delete their own account;
   * `deleteOk` is what the credential store's delete reports.
   */
  function DeleteUser(d: Directory, session: Caller, userId: UserId, deleteOk: bool): (r: Reply<Directory, bool>)
    ensures session.id == userId ==> r == Reply(d, Err(ActionProhibited))
    ensures session.id != userId && deleteOk ==>
              r.result == Ok(true) && r.state == d.(users := d.users - {userId})
    ensures session.id != userId && !deleteOk ==> r == Reply(d, Err(DeleteUserError))
    ensures session.id in d.users ==> session.id in r.state.users
  {
    if session.id != userId then
      if deleteOk then Reply(d.(users := d.users - {userId}), Ok(true))
      else Reply(d, Err(DeleteUserError))
    else
      Reply(d, Err(ActionProhibited))
  }

  /** After an admin's edit, the public view of that user shows the form's name and profile image. */
  lemma UpdatedUserIsServed(d: Directory, userId: UserId, form: UserUpdateForm)
    requires !StartsWith(userId, SharedPrefix)
    requires UpdateUserById(d, userId, form).result.Ok?
    ensures GetUserById(UpdateUserById(d, userId, form).state, userId)
            == Ok(UserResponse(form.name, form.profileImageUrl))
  {
  }

  /** After a successful delete, looking the user up by id is USER_NOT_FOUND. */
  lemma DeletedUserIsNotFound(d: Directory, session: Caller, userId: UserId)
    requires !StartsWith(userId, SharedPrefix)
    requires DeleteUser(d, session, userId, true).result.Ok?
    ensures GetUserById(DeleteUser(d, session, userId, true).state, userId) == Err(UserNotFound)
  {
  }

  /**
   * The default permissions and the arena settings are disjoint parts of the
   * configuration: setting one leaves the other, and the two updates commute.
   */
  lemma PermissionsAndArenaSettingsCommute(cfg: AppConfig, perms: UserPermissions, form: Evaluations.ConfigForm)
    ensures var a := SetDefaultPermissions(cfg, perms).state;
            && a.enableArenaModels == cfg.enableArenaModels
            && a.arenaModels == cfg.arenaModels
    ensures var a := Evaluations.UpdateConfig(SetDefaultPermissions(cfg, perms).state, form);
            var b := SetDefaultPermissions(Evaluations.UpdateConfig(cfg, form).state, perms);
            && a.state == b.state
            && a.result == Evaluations.UpdateConfig(cfg, form).result
            && b.result == SetDefaultPermissions(cfg, perms).result
  {
  }

  /**
   * Deleting the first user hands the title on: the earliest of the remaining
   * users becomes the first user, and their role can no longer be changed.
   */
  lemma FirstUserPassesOnDelete(d: Directory, session: Caller, first: UserId, next: UserId, role: Role)
    requires IsFirstUser(d, first)
    requires next in d.users && next != first
    requires forall v :: v in d.users && v != first ==> d.users[next].createdAt <= d.users[v].createdAt
    requires session.id != first
    ensures var after := DeleteUser(d, session, first, true).state;
            && first !in after.users
            && IsFirstUser(after, next)
            && UpdateRole(after, session, next, role) == Reply(after, Err(ActionProhibited))
  {
  }
}
